=== FILE: README.md ===
# Verified model of the fido-u2f web-safe codec and facet configuration

This project models two pieces of `TwoFactorAuth`, the U2F (FIDO Universal 2nd Factor) layer of the
`fido-u2f` Ruby gem, in Dafny:

- **The web-safe base64 codec** (`websafe_base64_encode`, `websafe_base64_decode`) and the challenge
  generator built on it (`random_encoded_challenge`). U2F carries challenges, key handles and
  client data in this format: the URL and filename safe alphabet of section 5 of RFC 4648, with the
  `=` padding removed.
  - The gem delegates to Ruby's `Base64.urlsafe_encode64` / `urlsafe_decode64`, and pads the text it
    decodes to a multiple of four first. Module `Base64` writes these out from RFC 4648; the decoder
    is `strict_decode64` after translating the alphabet, which is what `urlsafe_decode64` computes on
    such text:
    - the decoder maps `-`/`_` back to `+`/`/`, so it also accepts `+` and `/`;
    - it rejects any length that is not a multiple of four;
    - it allows `=` only in the final quantum;
    - it requires the bits that padding leaves over to be zero.
  - Module `Websafe` adds the trimming of `=` and the padding back out.
- **The facet-trust configuration** (`facet_domain=`, `facet_domain`, `trusted_facet_list_url=`,
  `trusted_facet_list_url`, `facets=`, `facets`).
  - The three module instance variables become one immutable `FacetTrust.Config` value. Each setter
    returns a new one; the validating setter returns a `Result`.
  - The two regular expressions of `facet_domain=` are modelled with Ruby's meaning of `$`: the end
    of the string, or just before any line break.
  - The localhost pattern has a declarative meaning, `LocalhostLike`: some match of
    `localhost(:\d+)?\/?` ends at a line end. It also has a scanning decision procedure,
    `MatchesLocalhost`, which the setter runs. Both directions of their agreement are proved.

What is proved:
- Round trip: decoding the encoding of any byte string gives the bytes back. The padded form is
  accepted too.
- Canonicity: over the URL-safe alphabet, whatever decodes re-encodes to the same text.
- The encoder uses only the URL-safe alphabet, and its output length is `4·(n div 3) + {0,2,3}`, so a
  32-byte challenge is 43 characters.
- The padding arithmetic of the decoder.
- Lengths of remainder one modulo four are rejected, and so is any input holding a character
  outside the decoder's alphabet other than `=`, wherever it stands.
- The localhost and placeholder rejections, with their messages, in both directions.
- At most one slash is stripped: the leftmost one standing before a line end or at the end.
- The getter defaults are derived from the domain at read time.

The model also pins down some consequences of the code as written:
- The placeholder comparison is made on the raw input, so `"https://www.example.com/"` is accepted.
- The localhost pattern has no word boundary, so `"http://mylocalhost/"` is refused.
- A domain any of whose lines ends in `localhost`, an optional `:` and digits, and an optional `/`
  is refused. A line that merely contains `localhost` does not count: `"http://localhost.evil"`
  followed by a line break and `"foo"` is accepted (`FacetTrust.MidLineExample`).
- The localhost check looks at the domain before its slash is stripped. So
  `"http://localhost//"` is accepted and stored as `"http://localhost/"`, a value the check itself
  would refuse (`FacetTrust.DoubleSlashExample`).

Files:
- `wrappers.dfy`: `Option` and `Result`.
- `errors.dfy`: the `TwoFactorAuthError` classes and their messages.
- `base64.dfy`: the padded URL-safe codec.
- `websafe.dfy`: the unpadded codec and the challenge.
- `facets.dfy`: the configuration.

Behaviour of the code worth knowing:
- `facet_domain=` strips only one trailing slash, so `"https://a.org//"` is stored as
  `"https://a.org/"`.
- `facets` returns `[nil]` when no domain is set and the facet list is unset or empty, so
  `FacetTrust.Facets` returns a sequence of `Option<string>`.
- Decoding errors are Ruby's `ArgumentError` ("invalid base64"), here `Base64.DecodeError`.

## Model

| member | source | states |
|---|---|---|
| Base64.UrlsafeEncode | lib/two_factor_auth.rb:58 | the padded encoding of n bytes has 4·⌈n/3⌉ characters |
| Base64.EncodeShape | lib/two_factor_auth.rb:58 | the padded encoding is URL-safe alphabet characters followed by exactly (3 − n mod 3) mod 3 `=` |
| Base64.DecodeEncode | lib/two_factor_auth.rb:58-64 | strict decoding of the padded encoding of any byte string gives the bytes back |
| Base64.EncodeDecode | lib/two_factor_auth.rb:64 | over the URL-safe alphabet and `=`, every string that decodes is the encoding of what it decodes to, so the strict decoder accepts only canonical text |
| Base64.UrlsafeDecode | lib/two_factor_auth.rb:64 | strict decoding after translating the alphabet accepts only whole quanta: every input it accepts has a length that is a multiple of four |
| Base64.ForeignCharRejected | lib/two_factor_auth.rb:64 | a character the decoder gives no value, other than `=`, anywhere in the input makes the whole decoding fail |
| Base64.DecodeValueCharacterised | lib/two_factor_auth.rb:64 | the decoder gives a character a value exactly when it is in the URL-safe alphabet or is `+` or `/`, and an alphabet character decodes to the sextet it encodes |
| Websafe.TrimPadding | lib/two_factor_auth.rb:58 | `sub(/=+$/,'')` removes exactly the trailing run of `=`: the result is a prefix, everything removed is `=`, and the result does not end in `=` |
| Websafe.TrimPads | lib/two_factor_auth.rb:58 | trimming a run of `=` appended to a string that does not end in `=` gives the string back |
| Websafe.PaddedWidth | lib/two_factor_auth.rb:63 | `(length/4.0).ceil*4` is the least multiple of four that is at least the length |
| Websafe.Pad | lib/two_factor_auth.rb:63 | `ljust` pads to a multiple of four with fewer than four `=`, keeps the input as prefix, and leaves input of a multiple-of-four length unchanged |
| Websafe.WebsafeEncode | lib/two_factor_auth.rb:56-59 | the unpadded encoding has 4·(n div 3) + {0,2,3} characters, all from the URL-safe alphabet, none of them `=`, and is the padded encoding minus exactly its padding |
| Websafe.TrimmedEncoding | lib/two_factor_auth.rb:58 | trimming the padded encoding leaves its alphabet part of the unpadded length, and that part followed by the padding is the padded encoding |
| Websafe.EncodedLengths | lib/two_factor_auth.rb:58-63 | the padded length is a multiple of four, is the unpadded length plus the padding count, and is what padding the unpadded length back out gives |
| Websafe.PadRestoresEncoding | lib/two_factor_auth.rb:58-63 | padding the unpadded encoding restores the padded encoding |
| Websafe.WebsafeRoundTrip | lib/two_factor_auth.rb:56-65 | `websafe_base64_decode(websafe_base64_encode(b)) == b` for every byte string b |
| Websafe.DecodeAcceptsPadded | lib/two_factor_auth.rb:61-65 | the decoder also accepts the padded encoding, which padding leaves unchanged |
| Websafe.EarlyPadRejected | lib/two_factor_auth.rb:64 | a final quantum whose second character is `=` is always a decode error |
| Websafe.WebsafeDecode | lib/two_factor_auth.rb:61-65 | every input of length ≡ 1 (mod 4) is a decode error; whatever decodes holds only alphabet characters, `+`, `/` and `=`; input already a multiple of four long is decoded strictly as it is |
| Websafe.PaddedDecodeFailures | lib/two_factor_auth.rb:61-65 | padding out and decoding fails for a length ≡ 1 (mod 4) and for any foreign character in the unpadded input |
| Websafe.WebsafeForeignCharRejected | lib/two_factor_auth.rb:61-65 | a character outside the decoder's alphabet, other than `=`, anywhere in the unpadded input makes decoding fail |
| Websafe.DecodeCanonical | lib/two_factor_auth.rb:56-65 | a URL-safe string that decodes is exactly the encoding of its bytes |
| Websafe.RandomEncodedChallenge | lib/two_factor_auth.rb:67-72 | fails exactly when the random source fails, with `CantGenerateRandomNumbers` and its message; otherwise gives 43 URL-safe characters that decode to the 32 drawn bytes |
| FacetTrust.DigitRun | lib/two_factor_auth.rb:19 | the length of the longest run of `\d` characters a string ends with |
| FacetTrust.EndsWithLocalhostSound | lib/two_factor_auth.rb:19 | the suffix test finds only strings that a match of `localhost(:\d+)?\/?` ends |
| FacetTrust.EndsWithLocalhostComplete | lib/two_factor_auth.rb:19 | the suffix test finds every string that a match of `localhost(:\d+)?\/?` ends |
| FacetTrust.EndsWithLocalhostCorrect | lib/two_factor_auth.rb:19 | the suffix test holds exactly when some match of the pattern ends where the string ends |
| FacetTrust.MatchesAtOrBeforeCorrect | lib/two_factor_auth.rb:19 | scanning back from a position finds a match exactly when one ends at a line end up to that position |
| FacetTrust.MatchesLocalhostCorrect | lib/two_factor_auth.rb:19 | the setter's check succeeds exactly when `facet_domain =~ /localhost(:\d+)?\/?$/` does |
| FacetTrust.SingleLineLocalhost | lib/two_factor_auth.rb:19 | on input without line breaks the pattern must end at the end of the string |
| FacetTrust.FirstSlashAtLineEnd | lib/two_factor_auth.rb:29 | finds the leftmost slash standing at a line end, or reports there is none |
| FacetTrust.SubTrailingSlash | lib/two_factor_auth.rb:29 | `sub(/\/$/, '')` removes the leftmost slash at a line end and nothing else, and leaves a string without one unchanged |
| FacetTrust.SingleLineSlash | lib/two_factor_auth.rb:29 | on a single line exactly one trailing slash is removed, and only a trailing one |
| FacetTrust.SetFacetDomain | lib/two_factor_auth.rb:18-30 | fails exactly for localhost-like input or the exact placeholder, with the localhost message taking precedence; otherwise stores the slash-stripped domain and changes nothing else |
| FacetTrust.LocalhostRejected | lib/two_factor_auth.rb:19-21 | any domain ending in `localhost`, an optional `:` and digits, and an optional `/` is refused with the localhost message |
| FacetTrust.StripsOneSlash | lib/two_factor_auth.rb:29 | a single-line domain is stored with exactly one trailing slash removed if it has one, and unchanged otherwise |
| FacetTrust.FacetDomain | lib/two_factor_auth.rb:32-34 | the getter returns the value both defaults are built from: an unset or empty facet list falls back to the one-element list of it, the URL to its text followed by the trusted-facets path |
| FacetTrust.SetTrustedFacetListUrl | lib/two_factor_auth.rb:36-38 | stores the override and leaves the domain and facets alone |
| FacetTrust.TrustedFacetListUrl | lib/two_factor_auth.rb:40-42 | gives the override whenever one is set, even an empty one; otherwise the domain (empty when unset) followed by `/two_factor_auth/trusted_facets` |
| FacetTrust.SetFacets | lib/two_factor_auth.rb:44-46 | stores the list and leaves the domain and URL override alone |
| FacetTrust.Facets | lib/two_factor_auth.rb:48-54 | gives `[facet_domain]` when the stored list is unset or empty; otherwise the stored list, element by element, in order |
| FacetTrust.DefaultsTrackDomain | lib/two_factor_auth.rb:29-54 | with no overrides, the URL and facets read after a domain change derive from the new stored domain |
| FacetTrust.OverridesSurviveDomainChange | lib/two_factor_auth.rb:36-54 | an explicit URL or a non-empty facet list is unaffected by a later domain change |
| FacetTrust.SetFacetDomainStores | lib/two_factor_auth.rb:29-34 | after a successful set the getter returns the slash-stripped domain and the overrides are unchanged |
| FacetTrust.FacetsRoundTrip | lib/two_factor_auth.rb:44-54 | a non-empty list is read back as given; an empty or cleared list falls back to the domain |
| FacetTrust.TrustedFacetListUrlRoundTrip | lib/two_factor_auth.rb:36-42 | an override is read back as given, even an empty one; clearing it restores the default |
| FacetTrust.LocalhostPortExample | lib/two_factor_auth.rb:19-21 | `"http://localhost:3000"` is refused with the localhost message |
| FacetTrust.LocalhostExample | lib/two_factor_auth.rb:19-21 | `"http://localhost"` is refused with the localhost message |
| FacetTrust.LocalhostSuffixExample | lib/two_factor_auth.rb:19-21 | `"http://mylocalhost/"` is refused too: the pattern has no word boundary |
| FacetTrust.MultiLineExample | lib/two_factor_auth.rb:19-21 | localhost at the end of the first of two lines is refused, since `$` matches before a line break |
| FacetTrust.MidLineExample | lib/two_factor_auth.rb:19-29 | `"http://localhost.evil"`, a line break and `"foo"` does not match the localhost pattern and is accepted: a line must end in the pattern, not merely contain `localhost` |
| FacetTrust.PlaceholderExample | lib/two_factor_auth.rb:25-27 | `"https://www.example.com"` is refused with the placeholder message |
| FacetTrust.PlaceholderWithSlashExample | lib/two_factor_auth.rb:25-29 | `"https://www.example.com/"` is accepted and stored as the placeholder itself |
| FacetTrust.RealDomainChecks | lib/two_factor_auth.rb:19-29 | `"https://auth.example.org/"` does not look like localhost and loses its slash |
| FacetTrust.AcceptedExample | lib/two_factor_auth.rb:18-54 | after setting `"https://auth.example.org/"` on a fresh configuration, the domain is `"https://auth.example.org"`, the facets are `["https://auth.example.org"]`, and the URL is that domain followed by `/two_factor_auth/trusted_facets` |
| FacetTrust.DoubleSlashPasses | lib/two_factor_auth.rb:19-29 | `"http://localhost//"` passes the localhost check and becomes `"http://localhost/"` |
| FacetTrust.DoubleSlashExample | lib/two_factor_auth.rb:19-29 | `"http://localhost//"` is accepted, and the stored `"http://localhost/"` matches the localhost pattern |

## Left out

- `decode_pubkey` and `pubkey_valid?` (lib/two_factor_auth.rb:74-87) and the `InvalidPublicKey` error they raise. They wrap OpenSSL's elliptic-curve point decoding, which is not part of this model.
- `ActiveModel::Validations::AssociatedValidator` and `validates_associated` (lib/two_factor_auth.rb:90-138): generic framework validation glue.
- `two_factor_auth_for` (lib/two_factor_auth.rb:140-155): Rails routing.
- `OpenSSL::Random.pseudo_bytes` is a parameter. `Websafe.RandomDraw` is either 32 bytes or the generator's `RandomError`; nothing about the quality of the randomness is modelled.
- Module `Base64` writes out Ruby's `Base64` library from RFC 4648 and the behaviour of Ruby's strict decoder; the library's other entry points are not modelled.
- Base64.UrlsafeDecode: does not model the padding step that `urlsafe_decode64` has taken since Ruby 2.3, which pads input not ending in `=` to a multiple of four before decoding (so Ruby decodes `"AA"` where the model fails). `websafe_base64_decode` pads its argument to a multiple of four first (lib/two_factor_auth.rb:63), so that step never changes what line 64 decodes.
- The floating-point division in `(encoded.length/4.0).ceil` is modelled as integer ceiling. The two agree for every length below 2^53.
- Module-level mutable state and its concurrency are not modelled; the configuration is a value that each setter returns anew. A failed `facet_domain=` gives no new configuration, so the caller's is unchanged.
- `facet_domain=` with `nil` or a non-string argument raises `NoMethodError` in Ruby. `FacetTrust.SetFacetDomain` takes a string.
- Overrides that are neither strings nor arrays (for example `false`) are not modelled. The URL override is an optional string and the facet list an optional list of strings.
- Websafe.TrimPadding: models `sub(/=+$/, '')` on input without line breaks only. It is applied solely to the padded encoding, which never contains one.
- The commented-out `.dev` check (lib/two_factor_auth.rb:22-24) is not code and is not modelled.

=== FILE: base64.dfy ===
/**
 * The padded URL-safe base64 codec that lib/two_factor_auth.rb takes from Ruby's `Base64` library:
 * `urlsafe_encode64` (the alphabet of section 5 of RFC 4648, with the `=` padding of section 4) and
 * `urlsafe_decode64` on text whose length is a multiple of four, the only text the gem passes it: there
 * it translates `-` and `_` to `+` and `/` and then decodes strictly (`strict_decode64`): every quantum
 * of four characters must be complete, `=` may only end the final quantum, and the bits that padding
 * leaves over must be zero (section 3.5 of RFC 4648).
 */
module Base64 {
  import opened Wrappers

  type byte = x: int | 0 <= x < 256
  type sextet = x: int | 0 <= x < 64

  /** The error Ruby reports as `ArgumentError: invalid base64`. */
  datatype DecodeError = InvalidBase64

  const PadChar: char := '='

  /** The character of the URL and filename safe alphabet (Table 2 of RFC 4648) for a sextet. */
  function UrlSafeChar(v: sextet): char {
    if v < 26 then ('A' as int + v) as char
    else if v < 52 then ('a' as int + (v - 26)) as char
    else if v < 62 then ('0' as int + (v - 52)) as char
    else if v == 62 then '-'
    else '_'
  }

  /** The 64 characters of the URL and filename safe alphabet. */
  predicate IsUrlSafeChar(c: char) {
    'A' <= c <= 'Z' || 'a' <= c <= 'z' || '0' <= c <= '9' || c == '-' || c == '_'
  }

  /** Value of a character in the standard alphabet (Table 1 of RFC 4648); `=` and everything else have none. */
  function StandardValue(c: char): Option<sextet> {
    if 'A' <= c <= 'Z' then Some(c as int - 'A' as int)
    else if 'a' <= c <= 'z' then Some(c as int - 'a' as int + 26)
    else if '0' <= c <= '9' then Some(c as int - '0' as int + 52)
    else if c == '+' then Some(62)
    else if c == '/' then Some(63)
    else None
  }

  /** Ruby's `tr("-_", "+/")` on one character. */
  function ToStandardChar(c: char): char {
    if c == '-' then '+' else if c == '_' then '/' else c
  }

  /** The value the decoder gives a character: its standard value after the translation. */
  function DecodeValue(c: char): Option<sextet> {
    StandardValue(ToStandardChar(c))
  }

  /** Encodes the three-byte group x y z as four characters. */
  function EncodeGroup(x: byte, y: byte, z: byte): string {
    [UrlSafeChar(x / 4), UrlSafeChar(x % 4 * 16 + y / 16), UrlSafeChar(y % 16 * 4 + z / 64), UrlSafeChar(z % 64)]
  }

  /** Encodes a final group of one byte: two characters and `==`. */
  function EncodeOne(x: byte): string {
    [UrlSafeChar(x / 4), UrlSafeChar(x % 4 * 16), PadChar, PadChar]
  }

  /** Encodes a final group of two bytes: three characters and `=`. */
  function EncodeTwo(x: byte, y: byte): string {
    [UrlSafeChar(x / 4), UrlSafeChar(x % 4 * 16 + y / 16), UrlSafeChar(y % 16 * 4), PadChar]
  }

  /** Number of `=` the padded encoding of n bytes ends with. */
  function PadCount(n: nat): nat {
    (3 - n % 3) % 3
  }

  /** `Base64.urlsafe_encode64`: the padded encoding, three bytes at a time, with a one- or two-byte final group. */
  function UrlsafeEncode(b: seq<byte>): (r: string)
    ensures |r| == 4 * ((|b| + 2) / 3)
    decreases |b|
  {
    if |b| == 0 then ""
    else if |b| == 1 then EncodeOne(b[0])
    else if |b| == 2 then EncodeTwo(b[0], b[1])
    else
      EncodeGroup(b[0], b[1], b[2]) + UrlsafeEncode(b[3..])
  }

  /** The three bytes that four sextets a b c d carry (C's `castchar` truncation written out). */
  function Triple(a: sextet, b: sextet, c: sextet, d: sextet): seq<byte> {
    [a * 4 + b / 16, b % 16 * 16 + c / 4, c % 4 * 64 + d]
  }

  /** Decodes the last quantum, which alone may carry `==` or `=`. */
  function DecodeFinalQuad(q: string): Result<seq<byte>, DecodeError>
    requires |q| == 4
  {
    var a, b := DecodeValue(q[0]), DecodeValue(q[1]);
    if a.None? || b.None? then Failure(InvalidBase64)
    else if q[2] == PadChar then
      if q[3] == PadChar && b.value % 16 == 0 then Success([a.value * 4 + b.value / 16])
      else Failure(InvalidBase64)
    else
      var c := DecodeValue(q[2]);
      if c.None? then Failure(InvalidBase64)
      else if q[3] == PadChar then
        if c.value % 4 == 0 then Success([a.value * 4 + b.value / 16, b.value % 16 * 16 + c.value / 4])
        else Failure(InvalidBase64)
      else
        var d := DecodeValue(q[3]);
        if d.None? then Failure(InvalidBase64)
        else Success(Triple(a.value, b.value, c.value, d.value))
  }

  /**
   * `strict_decode64` after `tr("-_", "+/")`, one quantum at a time; it accepts only whole quanta. On
   * text whose length is a multiple of four this is `Base64.urlsafe_decode64`.
   */
  function UrlsafeDecode(s: string): (r: Result<seq<byte>, DecodeError>)
    ensures r.Success? ==> |s| % 4 == 0
    decreases |s|
  {
    if |s| == 0 then Success([])
    else if |s| < 4 then Failure(InvalidBase64)
    else if |s| == 4 then DecodeFinalQuad(s)
    else
      match (DecodeValue(s[0]), DecodeValue(s[1]), DecodeValue(s[2]), DecodeValue(s[3]))
      case (Some(a), Some(b), Some(c), Some(d)) =>
        (match UrlsafeDecode(s[4..])
         case Success(rest) => Success(Triple(a, b, c, d) + rest)
         case Failure(e) => Failure(e))
      case _ => Failure(InvalidBase64)
  }

  /** Every alphabet character decodes back to its sextet. */
  lemma CharRoundTrip(v: sextet)
    ensures IsUrlSafeChar(UrlSafeChar(v))
    ensures DecodeValue(UrlSafeChar(v)) == Some(v)
  {
  }

  /** e is alphabet characters followed by exactly k `=`. */
  ghost predicate PaddedShape(e: string, k: nat) {
    && k <= |e|
    && (forall i :: 0 <= i < |e| - k ==> IsUrlSafeChar(e[i]))
    && (forall i :: |e| - k <= i < |e| ==> e[i] == PadChar)
  }

  lemma GroupIsUrlSafe(x: byte, y: byte, z: byte)
    ensures forall i :: 0 <= i < 4 ==> IsUrlSafeChar(EncodeGroup(x, y, z)[i])
  {
    CharRoundTrip(x / 4);
    CharRoundTrip(x % 4 * 16 + y / 16);
    CharRoundTrip(y % 16 * 4 + z / 64);
    CharRoundTrip(z % 64);
  }

  lemma ShapeAfterGroup(g: string, rest: string, k: nat)
    requires |g| == 4 && forall i :: 0 <= i < 4 ==> IsUrlSafeChar(g[i])
    requires PaddedShape(rest, k)
    ensures PaddedShape(g + rest, k)
  {
    var e := g + rest;
    forall i | 0 <= i < |e| - k ensures IsUrlSafeChar(e[i]) {
      if i >= 4 {
        assert e[i] == rest[i - 4];
      }
    }
    forall i | |e| - k <= i < |e| ensures e[i] == PadChar {
      assert e[i] == rest[i - 4];
    }
  }

  lemma TailsAreShaped(x: byte, y: byte)
    ensures PaddedShape(EncodeOne(x), 2)
    ensures PaddedShape(EncodeTwo(x, y), 1)
  {
    CharRoundTrip(x / 4);
    CharRoundTrip(x % 4 * 16);
    CharRoundTrip(x % 4 * 16 + y / 16);
    CharRoundTrip(y % 16 * 4);
  }

  /** The padded encoding is alphabet characters followed by exactly PadCount(|b|) `=`. */
  lemma {:induction false} EncodeShape(b: seq<byte>)
    ensures PaddedShape(UrlsafeEncode(b), PadCount(|b|))
    decreases |b|
  {
    if |b| == 1 {
      TailsAreShaped(b[0], 0);
    } else if |b| == 2 {
      TailsAreShaped(b[0], b[1]);
    } else if |b| >= 3 {
      EncodeShape(b[3..]);
      EncodeShapeStep(b);
    }
  }

  /** Three more bytes need the same padding. */
  lemma PadCountPeriodic(n: nat)
    ensures PadCount(n + 3) == PadCount(n)
  {
    assert (n + 3) % 3 == n % 3;
  }

  /** One induction step of EncodeShape: a full group in front of a shaped encoding keeps its shape. */
  lemma EncodeShapeStep(b: seq<byte>)
    requires |b| >= 3 && PaddedShape(UrlsafeEncode(b[3..]), PadCount(|b| - 3))
    ensures PaddedShape(UrlsafeEncode(b), PadCount(|b|))
  {
    var g, rest := EncodeGroup(b[0], b[1], b[2]), UrlsafeEncode(b[3..]);
    assert UrlsafeEncode(b) == g + rest;
    PadCountPeriodic(|b| - 3);
    GroupIsUrlSafe(b[0], b[1], b[2]);
    ShapeAfterGroup(g, rest, PadCount(|b| - 3));
  }

  /** The decoder accepts exactly the URL-safe alphabet plus `+` and `/`, and on the URL-safe alphabet it inverts UrlSafeChar. */
  lemma DecodeValueCharacterised(c: char)
    ensures DecodeValue(c).Some? <==> IsUrlSafeChar(c) || c == '+' || c == '/'
    ensures IsUrlSafeChar(c) ==> UrlSafeChar(DecodeValue(c).value) == c
  {
  }

  /** The sextets of one, two or three bytes put back together give the bytes, and the padding bits are zero. */
  lemma SextetArithmetic(x: byte, y: byte, z: byte)
    ensures x / 4 * 4 + (x % 4 * 16 + y / 16) / 16 == x
    ensures (x % 4 * 16 + y / 16) % 16 * 16 + (y % 16 * 4 + z / 64) / 4 == y
    ensures (y % 16 * 4 + z / 64) % 4 * 64 + z % 64 == z
    ensures x % 4 * 16 % 16 == 0 && y % 16 * 4 % 4 == 0
  {
    var b: int := x % 4 * 16 + y / 16;
    assert b / 16 == x % 4 && b % 16 == y / 16;
    var c: int := y % 16 * 4 + z / 64;
    assert c / 4 == y % 16 && c % 4 == z / 64;
  }

  /** A final quantum `ab==` decodes to one byte when b's low four bits are zero. */
  lemma DecodeFinalQuadOne(q: string, a: sextet, b: sextet)
    requires |q| == 4 && q[2] == PadChar && q[3] == PadChar
    requires DecodeValue(q[0]) == Some(a) && DecodeValue(q[1]) == Some(b)
    ensures DecodeFinalQuad(q) == if b % 16 == 0 then Success([a * 4 + b / 16]) else Failure(InvalidBase64)
  {
  }

  /** A final quantum `abc=` decodes to two bytes when c's low two bits are zero. */
  lemma DecodeFinalQuadTwo(q: string, a: sextet, b: sextet, c: sextet)
    requires |q| == 4 && q[2] != PadChar && q[3] == PadChar
    requires DecodeValue(q[0]) == Some(a) && DecodeValue(q[1]) == Some(b) && DecodeValue(q[2]) == Some(c)
    ensures DecodeFinalQuad(q) ==
      if c % 4 == 0 then Success([a * 4 + b / 16, b % 16 * 16 + c / 4]) else Failure(InvalidBase64)
  {
  }

  lemma DecodeOneByte(x: byte)
    ensures UrlsafeDecode(EncodeOne(x)) == Success([x])
  {
    SextetArithmetic(x, 0, 0);
    CharRoundTrip(x / 4);
    CharRoundTrip(x % 4 * 16);
    DecodeFinalQuadOne(EncodeOne(x), x / 4, x % 4 * 16);
  }

  lemma DecodeTwoBytes(x: byte, y: byte)
    ensures UrlsafeDecode(EncodeTwo(x, y)) == Success([x, y])
  {
    SextetArithmetic(x, y, 0);
    CharRoundTrip(x / 4);
    CharRoundTrip(x % 4 * 16 + y / 16);
    CharRoundTrip(y % 16 * 4);
    DecodeFinalQuadTwo(EncodeTwo(x, y), x / 4, x % 4 * 16 + y / 16, y % 16 * 4);
  }

  /** Each character of an encoded group decodes to the sextet it was made from. */
  lemma GroupValues(x: byte, y: byte, z: byte)
    ensures var g := EncodeGroup(x, y, z);
      && DecodeValue(g[0]) == Some(x / 4) && DecodeValue(g[1]) == Some(x % 4 * 16 + y / 16)
      && DecodeValue(g[2]) == Some(y % 16 * 4 + z / 64) && DecodeValue(g[3]) == Some(z % 64)
  {
    CharRoundTrip(x / 4);
    CharRoundTrip(x % 4 * 16 + y / 16);
    CharRoundTrip(y % 16 * 4 + z / 64);
    CharRoundTrip(z % 64);
  }

  /** An encoded group is four alphabet characters carrying x y z. */
  lemma DecodeGroup(x: byte, y: byte, z: byte)
    ensures Triple(x / 4, x % 4 * 16 + y / 16, y % 16 * 4 + z / 64, z % 64) == [x, y, z]
    ensures DecodeFinalQuad(EncodeGroup(x, y, z)) == Success([x, y, z])
  {
    GroupValues(x, y, z);
    SextetArithmetic(x, y, z);
    var g := EncodeGroup(x, y, z);
    assert g[2] != PadChar && g[3] != PadChar;
  }

  /** A complete quantum in front of text that decodes yields its three bytes in front of that text's bytes. */
  lemma DecodeFullQuadThenRest(g: string, rest: string, a: sextet, b: sextet, c: sextet, d: sextet, v: seq<byte>)
    requires |g| == 4 && |rest| > 0
    requires DecodeValue(g[0]) == Some(a) && DecodeValue(g[1]) == Some(b)
    requires DecodeValue(g[2]) == Some(c) && DecodeValue(g[3]) == Some(d)
    requires UrlsafeDecode(rest) == Success(v)
    ensures UrlsafeDecode(g + rest) == Success(Triple(a, b, c, d) + v)
  {
    var s := g + rest;
    assert s[4..] == rest;
    assert s[0] == g[0] && s[1] == g[1] && s[2] == g[2] && s[3] == g[3];
  }

  lemma SplitAfterThree<T>(b: seq<T>)
    requires |b| >= 3
    ensures b == [b[0], b[1], b[2]] + b[3..]
  {
  }

  lemma DecodeThreeBytes(b: seq<byte>)
    requires |b| == 3
    ensures UrlsafeDecode(UrlsafeEncode(b)) == Success(b)
  {
    var g := EncodeGroup(b[0], b[1], b[2]);
    assert UrlsafeEncode(b) == g + UrlsafeEncode([]) == g;
    DecodeGroup(b[0], b[1], b[2]);
    assert b == [b[0], b[1], b[2]];
  }

  /** One induction step: an encoded group in front of text that decodes. */
  lemma DecodeGroupThenRest(x: byte, y: byte, z: byte, rest: string, tail: seq<byte>)
    requires |rest| > 0
    requires UrlsafeDecode(rest) == Success(tail)
    ensures UrlsafeDecode(EncodeGroup(x, y, z) + rest) == Success([x, y, z] + tail)
  {
    var a: sextet, b: sextet, c: sextet, d: sextet := x / 4, x % 4 * 16 + y / 16, y % 16 * 4 + z / 64, z % 64;
    GroupValues(x, y, z);
    DecodeFullQuadThenRest(EncodeGroup(x, y, z), rest, a, b, c, d, tail);
    DecodeGroup(x, y, z);
  }

  /** Decoding the padded encoding gives back the bytes. */
  lemma {:induction false} DecodeEncode(b: seq<byte>)
    ensures UrlsafeDecode(UrlsafeEncode(b)) == Success(b)
    decreases |b|
  {
    if |b| == 0 {
    } else if |b| == 1 {
      assert b == [b[0]];
      DecodeOneByte(b[0]);
    } else if |b| == 2 {
      assert b == [b[0], b[1]];
      DecodeTwoBytes(b[0], b[1]);
    } else if |b| == 3 {
      DecodeThreeBytes(b);
    } else {
      var rest := UrlsafeEncode(b[3..]);
      assert UrlsafeEncode(b) == EncodeGroup(b[0], b[1], b[2]) + rest;
      DecodeEncode(b[3..]);
      DecodeGroupThenRest(b[0], b[1], b[2], rest, b[3..]);
      SplitAfterThree(b);
    }
  }

  /** On the URL-safe alphabet the decoder's value inverts UrlSafeChar. */
  lemma CharCanonical(c: char)
    requires IsUrlSafeChar(c)
    ensures DecodeValue(c).Some? && UrlSafeChar(DecodeValue(c).value) == c
  {
    DecodeValueCharacterised(c);
  }

  lemma TripleArithmetic(a: sextet, b: sextet, c: sextet, d: sextet)
    ensures var t := Triple(a, b, c, d);
      && t[0] / 4 == a && t[0] % 4 * 16 + t[1] / 16 == b
      && t[1] % 16 * 4 + t[2] / 64 == c && t[2] % 64 == d
  {
    var x: int, y: int, z: int := a * 4 + b / 16, b % 16 * 16 + c / 4, c % 4 * 64 + d;
    assert x / 4 == a && x % 4 == b / 16;
    assert y / 16 == b % 16 && y % 16 == c / 4;
    assert z / 64 == c % 4 && z % 64 == d;
  }

  /** The same for a final quantum with padding, whose leftover bits the decoder has checked to be zero. */
  lemma PaddedQuadArithmetic(a: sextet, b: sextet, c: sextet)
    ensures b % 16 == 0 ==> (a * 4 + b / 16) / 4 == a && (a * 4 + b / 16) % 4 * 16 == b
    ensures c % 4 == 0 ==>
      var x: int, y: int := a * 4 + b / 16, b % 16 * 16 + c / 4;
      x / 4 == a && x % 4 * 16 + y / 16 == b && y % 16 * 4 == c
  {
    var x: int, y: int := a * 4 + b / 16, b % 16 * 16 + c / 4;
    assert x / 4 == a && x % 4 == b / 16;
    assert y / 16 == b % 16 && y % 16 == c / 4;
  }

  /** Re-encoding the byte of a canonical `ab==` quantum gives the quantum back. */
  lemma OneByteQuadRoundTrip(q: string, a: sextet, b: sextet)
    requires |q| == 4 && q[0] == UrlSafeChar(a) && q[1] == UrlSafeChar(b) && q[2] == PadChar && q[3] == PadChar
    requires b % 16 == 0
    ensures a * 4 + b / 16 < 256 && UrlsafeEncode([a * 4 + b / 16]) == q
  {
    PaddedQuadArithmetic(a, b, 0);
    var x: byte := a as int * 4 + b / 16;
    assert UrlsafeEncode([x]) == EncodeOne(x);
  }

  /** Re-encoding the bytes of a canonical `abc=` quantum gives the quantum back. */
  lemma TwoByteQuadRoundTrip(q: string, a: sextet, b: sextet, c: sextet)
    requires |q| == 4 && q[0] == UrlSafeChar(a) && q[1] == UrlSafeChar(b) && q[2] == UrlSafeChar(c) && q[3] == PadChar
    requires c % 4 == 0
    ensures a * 4 + b / 16 < 256 && b % 16 * 16 + c / 4 < 256
    ensures UrlsafeEncode([a * 4 + b / 16, b % 16 * 16 + c / 4]) == q
  {
    PaddedQuadArithmetic(a, b, c);
    var x: byte, y: byte := a as int * 4 + b / 16, b as int % 16 * 16 + c / 4;
    assert UrlsafeEncode([x, y]) == EncodeTwo(x, y);
  }

  lemma FinalQuadOneByte(q: string)
    requires |q| == 4 && IsUrlSafeChar(q[0]) && IsUrlSafeChar(q[1]) && q[2] == PadChar && q[3] == PadChar
    requires DecodeFinalQuad(q).Success?
    ensures UrlsafeEncode(DecodeFinalQuad(q).value) == q
  {
    CharCanonical(q[0]);
    CharCanonical(q[1]);
    var a, b := DecodeValue(q[0]).value, DecodeValue(q[1]).value;
    DecodeFinalQuadOne(q, a, b);
    OneByteQuadRoundTrip(q, a, b);
  }

  lemma FinalQuadTwoBytes(q: string)
    requires |q| == 4 && IsUrlSafeChar(q[0]) && IsUrlSafeChar(q[1]) && IsUrlSafeChar(q[2]) && q[3] == PadChar
    requires DecodeFinalQuad(q).Success?
    ensures UrlsafeEncode(DecodeFinalQuad(q).value) == q
  {
    CharCanonical(q[0]);
    CharCanonical(q[1]);
    CharCanonical(q[2]);
    var a, b, c := DecodeValue(q[0]).value, DecodeValue(q[1]).value, DecodeValue(q[2]).value;
    assert q[2] != PadChar;
    DecodeFinalQuadTwo(q, a, b, c);
    TwoByteQuadRoundTrip(q, a, b, c);
  }

  lemma DecodeFinalQuadValues(q: string, a: sextet, b: sextet, c: sextet, d: sextet)
    requires |q| == 4 && q[2] != PadChar && q[3] != PadChar
    requires DecodeValue(q[0]) == Some(a) && DecodeValue(q[1]) == Some(b)
    requires DecodeValue(q[2]) == Some(c) && DecodeValue(q[3]) == Some(d)
    ensures DecodeFinalQuad(q) == Success(Triple(a, b, c, d))
  {
  }

  /** Four alphabet characters, given their values: decoding then re-encoding them gives them back. */
  lemma QuadRoundTrip(q: string, a: sextet, b: sextet, c: sextet, d: sextet, rest: seq<byte>)
    requires |q| == 4
    requires UrlSafeChar(a) == q[0] && UrlSafeChar(b) == q[1] && UrlSafeChar(c) == q[2] && UrlSafeChar(d) == q[3]
    ensures UrlsafeEncode(Triple(a, b, c, d) + rest) == q + UrlsafeEncode(rest)
  {
    var t := Triple(a, b, c, d);
    GroupOfTriple(q, a, b, c, d);
    assert q[..4] == q;
    assert t == [t[0], t[1], t[2]];
    EncodeGroupThenRest(t[0], t[1], t[2], rest);
  }

  lemma FinalQuadThreeBytes(q: string)
    requires |q| == 4 && IsUrlSafeChar(q[0]) && IsUrlSafeChar(q[1]) && IsUrlSafeChar(q[2]) && IsUrlSafeChar(q[3])
    ensures DecodeFinalQuad(q).Success?
    ensures UrlsafeEncode(DecodeFinalQuad(q).value) == q
  {
    CharCanonical(q[0]);
    CharCanonical(q[1]);
    CharCanonical(q[2]);
    CharCanonical(q[3]);
    var a, b, c, d := DecodeValue(q[0]).value, DecodeValue(q[1]).value, DecodeValue(q[2]).value, DecodeValue(q[3]).value;
    DecodeFinalQuadValues(q, a, b, c, d);
    QuadRoundTrip(q, a, b, c, d, []);
    assert Triple(a, b, c, d) + [] == Triple(a, b, c, d);
    assert q + UrlsafeEncode([]) == q;
  }

  /** A final quantum over the URL-safe alphabet that decodes is the encoding of its bytes. */
  lemma FinalQuadCanonical(q: string)
    requires |q| == 4
    requires forall i :: 0 <= i < 4 ==> IsUrlSafeChar(q[i]) || q[i] == PadChar
    requires DecodeFinalQuad(q).Success?
    ensures UrlsafeEncode(DecodeFinalQuad(q).value) == q
  {
    var c0 := q[0];
    assert IsUrlSafeChar(c0) || c0 == PadChar;
    var c1 := q[1];
    assert IsUrlSafeChar(c1) || c1 == PadChar;
    var c2 := q[2];
    assert IsUrlSafeChar(c2) || c2 == PadChar;
    var c3 := q[3];
    assert IsUrlSafeChar(c3) || c3 == PadChar;
    if q[2] == PadChar {
      FinalQuadOneByte(q);
    } else if q[3] == PadChar {
      FinalQuadTwoBytes(q);
    } else {
      FinalQuadThreeBytes(q);
    }
  }

  lemma EncodeGroupThenRest(x: byte, y: byte, z: byte, rest: seq<byte>)
    ensures UrlsafeEncode([x, y, z] + rest) == EncodeGroup(x, y, z) + UrlsafeEncode(rest)
  {
    assert ([x, y, z] + rest)[3..] == rest;
  }

  /** Four sextets, turned into bytes and encoded again, give the same four characters. */
  lemma GroupOfTriple(q: string, a: sextet, b: sextet, c: sextet, d: sextet)
    requires |q| >= 4
    requires UrlSafeChar(a) == q[0] && UrlSafeChar(b) == q[1] && UrlSafeChar(c) == q[2] && UrlSafeChar(d) == q[3]
    ensures var t := Triple(a, b, c, d);
      EncodeGroup(t[0], t[1], t[2]) == q[..4]
  {
    TripleArithmetic(a, b, c, d);
  }

  /** Text longer than one quantum decodes only if its first quantum is four alphabet characters. */
  lemma NonFinalQuadValues(s: string)
    requires |s| > 4 && UrlsafeDecode(s).Success?
    ensures DecodeValue(s[0]).Some? && DecodeValue(s[1]).Some? && DecodeValue(s[2]).Some? && DecodeValue(s[3]).Some?
  {
  }

  /** One induction step over abstract values: a complete quantum in front of text that re-encodes to itself. */
  lemma FullQuadStep(q: string, tail: string, a: sextet, b: sextet, c: sextet, d: sextet, rest: seq<byte>)
    requires |q| == 4 && |tail| > 0
    requires DecodeValue(q[0]) == Some(a) && DecodeValue(q[1]) == Some(b)
    requires DecodeValue(q[2]) == Some(c) && DecodeValue(q[3]) == Some(d)
    requires UrlSafeChar(a) == q[0] && UrlSafeChar(b) == q[1] && UrlSafeChar(c) == q[2] && UrlSafeChar(d) == q[3]
    requires UrlsafeDecode(tail) == Success(rest) && UrlsafeEncode(rest) == tail
    ensures UrlsafeDecode(q + tail) == Success(Triple(a, b, c, d) + rest)
    ensures UrlsafeEncode(Triple(a, b, c, d) + rest) == q + tail
  {
    DecodeFullQuadThenRest(q, tail, a, b, c, d, rest);
    QuadRoundTrip(q, a, b, c, d, rest);
  }

  lemma FullQuadCanonical(s: string)
    requires |s| > 4
    requires forall i :: 0 <= i < |s| ==> IsUrlSafeChar(s[i]) || s[i] == PadChar
    requires UrlsafeDecode(s).Success?
    requires UrlsafeDecode(s[4..]).Success? && UrlsafeEncode(UrlsafeDecode(s[4..]).value) == s[4..]
    ensures UrlsafeEncode(UrlsafeDecode(s).value) == s
  {
    NonFinalQuadValues(s);
    var q, tail := s[..4], s[4..];
    assert s == q + tail;
    assert q[0] == s[0] && q[1] == s[1] && q[2] == s[2] && q[3] == s[3];
    CharCanonical(s[0]);
    CharCanonical(s[1]);
    CharCanonical(s[2]);
    CharCanonical(s[3]);
    FullQuadStep(q, tail, DecodeValue(s[0]).value, DecodeValue(s[1]).value, DecodeValue(s[2]).value,
      DecodeValue(s[3]).value, UrlsafeDecode(tail).value);
  }

  /** Text over the URL-safe alphabet, possibly padded, that decodes at all is exactly the encoding of what it decodes to. */
  lemma {:induction false} EncodeDecode(s: string)
    requires forall i :: 0 <= i < |s| ==> IsUrlSafeChar(s[i]) || s[i] == PadChar
    requires UrlsafeDecode(s).Success?
    ensures UrlsafeEncode(UrlsafeDecode(s).value) == s
    decreases |s|
  {
    if |s| == 0 {
    } else if |s| == 4 {
      FinalQuadCanonical(s);
    } else {
      assert |s| > 4;
      EncodeDecode(s[4..]);
      FullQuadCanonical(s);
    }
  }

  /**
   * A character outside the decoder's alphabet, other than `=`, anywhere in the text makes the
   * whole decoding fail.
   */
  lemma {:induction false} ForeignCharRejected(s: string, i: nat)
    requires i < |s| && DecodeValue(s[i]).None? && s[i] != PadChar
    ensures UrlsafeDecode(s).Failure?
    decreases |s|
  {
    if |s| > 4 && i >= 4 {
      ForeignCharRejected(s[4..], i - 4);
    }
  }
}

=== FILE: errors.dfy ===
/** The `TwoFactorAuthError` family of lib/two_factor_auth.rb: one constructor per error class, carrying its message. */
module Errors {

  datatype TwoFactorAuthError =
    | CantGenerateRandomNumbers(message: string)
    | InvalidFacetDomain(message: string)

  /** Message raised when the secure random source fails. */
  const EntropyMessage: string := "Not enough entropy to generate secure challenges"

  /** Message raised for a facet domain on localhost. */
  const LocalhostMessage: string := "Facet domain can't be localhost, edit /etc/hosts to make a custom hostname"

  /** Message raised for the unedited placeholder facet domain (lib/two_factor_auth.rb's spelling is kept). */
  const PlaceholderMessage: string := "You need to cusomize the facet_domain in config/initializers/two_factor_auth.rb"
}

=== FILE: facets.dfy ===
/**
 * The facet-trust configuration of lib/two_factor_auth.rb: the relying party's origin
 * (`facet_domain`), where clients fetch the trusted facet list (`trusted_facet_list_url`) and
 * the origins allowed to take part in a ceremony (`facets`). `TwoFactorAuth` keeps these in module
 * instance variables; here they are one immutable `Config` value that every setter returns anew.
 *
 * The two regular expressions of `facet_domain=` use Ruby's `$`, which matches at the end of the
 * string and also just before every line break; `AtLineEnd` says where.
 */
module FacetTrust {
  import opened Wrappers
  import opened Errors

  /** The three instance variables; `None` is Ruby's `nil` (never assigned). */
  datatype Config = Config(
    facetDomain: Option<string>,
    trustedFacetListUrl: Option<string>,
    facets: Option<seq<string>>)

  /** The configuration before any setter has run. */
  const Unconfigured: Config := Config(None, None, None)

  /** The documentation placeholder the setter refuses. */
  const PlaceholderDomain: string := "https://www.example.com"

  /** The path the default trusted facet list URL appends to the facet domain. */
  const TrustedFacetsPath: string := "/two_factor_auth/trusted_facets"

  const Localhost: string := "localhost"

  // ---------------------------------------------------------------------------------------------
  // Regular-expression semantics, stated directly

  /** Ruby's `$` matches at position p: the end of the string or just before a line break. */
  predicate AtLineEnd(s: string, p: nat) {
    p == |s| || (p < |s| && s[p] == '\n')
  }

  /** `\d` in a Ruby regular expression: an ASCII digit. */
  predicate IsDigit(c: char) {
    '0' <= c <= '9'
  }

  /** `:\d+`: a colon followed by at least one digit. */
  ghost predicate PortSuffix(t: string) {
    |t| >= 2 && t[0] == ':' && forall i :: 1 <= i < |t| ==> IsDigit(t[i])
  }

  /** `(:\d+)?\/?`: an optional port, then an optional slash. */
  ghost predicate LocalhostTail(t: string) {
    || t == ""
    || t == "/"
    || PortSuffix(t)
    || (|t| >= 1 && t[|t| - 1] == '/' && PortSuffix(t[..|t| - 1]))
  }

  /** `localhost(:\d+)?\/?` matches u from position j through to u's end. */
  ghost predicate MatchFrom(u: string, j: nat) {
    j + |Localhost| <= |u| && u[j..j + |Localhost|] == Localhost && LocalhostTail(u[j + |Localhost|..])
  }

  /** Some match of `localhost(:\d+)?\/?` ends exactly where u ends. */
  ghost predicate PatternEndsString(u: string) {
    exists j: nat :: MatchFrom(u, j)
  }

  /** Position q of s is a line end at which some match of the pattern ends. */
  ghost predicate MatchEndsAt(s: string, q: nat) {
    q <= |s| && AtLineEnd(s, q) && PatternEndsString(s[..q])
  }

  /** `s =~ /localhost(:\d+)?\/?$/` succeeds: some match of the pattern ends at a line end of s. */
  ghost predicate LocalhostLike(s: string) {
    exists p: nat :: MatchEndsAt(s, p)
  }

  // ---------------------------------------------------------------------------------------------
  // Deciding the localhost pattern

  predicate EndsWith(u: string, x: string) {
    |x| <= |u| && u[|u| - |x|..] == x
  }

  /** Length of the longest run of digits u ends with. */
  function DigitRun(u: string): (n: nat)
    ensures n <= |u|
    ensures forall i :: |u| - n <= i < |u| ==> IsDigit(u[i])
    ensures n == |u| || !IsDigit(u[|u| - n - 1])
    decreases |u|
  {
    if |u| > 0 && IsDigit(u[|u| - 1]) then DigitRun(u[..|u| - 1]) + 1 else 0
  }

  /** u without one trailing slash, if it has one. */
  function DropSlash(u: string): string {
    if |u| > 0 && u[|u| - 1] == '/' then u[..|u| - 1] else u
  }

  /**
   * Whether the pattern ends where u ends, decided without search: once an optional final slash
   * is set aside, u must end in `localhost`, or in `localhost`, a colon and then all its trailing
   * digits (a colon is not a digit, so it can only stand just before the longest such run).
   */
  predicate EndsWithLocalhost(u: string) {
    var v := DropSlash(u);
    var n := DigitRun(v);
    || EndsWith(v, Localhost)
    || (0 < n < |v| && v[|v| - n - 1] == ':' && EndsWith(v[..|v| - n - 1], Localhost))
  }

  /** Some line end at or before p ends a match of the pattern, found by scanning back from p. */
  predicate MatchesAtOrBefore(s: string, p: nat)
    requires p <= |s|
    decreases p
  {
    (AtLineEnd(s, p) && EndsWithLocalhost(s[..p])) || (0 < p && MatchesAtOrBefore(s, p - 1))
  }

  /** The check of lib/two_factor_auth.rb:19. */
  predicate MatchesLocalhost(s: string) {
    MatchesAtOrBefore(s, |s|)
  }

  /** A run of digits bounded by a non-digit is the longest one. */
  lemma DigitRunExact(u: string, m: nat)
    requires m <= |u| && forall i :: |u| - m <= i < |u| ==> IsDigit(u[i])
    requires m == |u| || !IsDigit(u[|u| - m - 1])
    ensures DigitRun(u) == m
  {
  }

  /** Slices of a prefix are slices of the whole. */
  lemma PrefixSlice(u: string, v: string, a: nat, b: nat)
    requires |v| <= |u| && v == u[..|v|] && a <= b <= |v|
    ensures u[a..b] == v[a..b] && u[a..] == v[a..] + u[|v|..]
  {
    assert u[a..] == u[a..|v|] + u[|v|..];
  }

  /** A match of the pattern with no port. */
  lemma PlainMatch(u: string)
    requires EndsWith(DropSlash(u), Localhost)
    ensures PatternEndsString(u)
  {
    var v := DropSlash(u);
    var j := |v| - |Localhost|;
    PrefixSlice(u, v, j, |v|);
    var t := u[j + |Localhost|..];
    assert t == u[|v|..];
    assert t == "" || t == "/";
    assert MatchFrom(u, j);
  }

  /** A match of the pattern with a port: v is u without its optional slash and ends in n digits. */
  lemma PortMatch(u: string, v: string, n: nat)
    requires v == DropSlash(u) && 0 < n < |v|
    requires forall i :: |v| - n <= i < |v| ==> IsDigit(v[i])
    requires v[|v| - n - 1] == ':' && EndsWith(v[..|v| - n - 1], Localhost)
    ensures PatternEndsString(u)
  {
    var k := |v| - n - 1;
    var j := k - |Localhost|;
    PrefixSlice(u, v, j, |v|);
    assert u[j..k] == v[..k][j..];
    var port := u[k..|v|];
    assert port == v[k..];
    assert PortSuffix(port);
    var t := u[k..];
    if |v| == |u| {
      assert t == port;
    } else {
      assert t[..|t| - 1] == port;
    }
    assert MatchFrom(u, j);
  }

  /** The decision procedure finds only real matches. */
  lemma EndsWithLocalhostSound(u: string)
    requires EndsWithLocalhost(u)
    ensures PatternEndsString(u)
  {
    var v := DropSlash(u);
    var n := DigitRun(v);
    if EndsWith(v, Localhost) {
      PlainMatch(u);
    } else {
      PortMatch(u, v, n);
    }
  }

  /** A match with no port is found. */
  lemma PlainFound(u: string, j: nat)
    requires MatchFrom(u, j)
    requires u[j + |Localhost|..] == "" || u[j + |Localhost|..] == "/"
    ensures EndsWith(DropSlash(u), Localhost)
  {
    var k := j + |Localhost|;
    var v := DropSlash(u);
    assert v == u[..k];
    assert v[|v| - |Localhost|..] == u[j..k];
  }

  /** A match with a port is found. */
  lemma PortFound(u: string, j: nat, port: string)
    requires MatchFrom(u, j) && PortSuffix(port)
    requires u[j + |Localhost|..] == port || u[j + |Localhost|..] == port + "/"
    ensures var v := DropSlash(u); var n := DigitRun(v);
      0 < n < |v| && v[|v| - n - 1] == ':' && EndsWith(v[..|v| - n - 1], Localhost)
  {
    var k := j + |Localhost|;
    var v := DropSlash(u);
    assert v == u[..k + |port|];
    assert v[k..] == port;
    DigitRunExact(v, |port| - 1);
    var w := v[..k];
    assert w[j..] == u[j..k];
  }

  /** The decision procedure finds every match. */
  lemma EndsWithLocalhostComplete(u: string, j: nat)
    requires MatchFrom(u, j)
    ensures EndsWithLocalhost(u)
  {
    var t := u[j + |Localhost|..];
    if t == "" || t == "/" {
      PlainFound(u, j);
    } else if PortSuffix(t) {
      PortFound(u, j, t);
    } else {
      assert t == t[..|t| - 1] + "/";
      PortFound(u, j, t[..|t| - 1]);
    }
  }

  /** The decision procedure and the pattern agree on where a match may end. */
  lemma EndsWithLocalhostCorrect(u: string)
    ensures EndsWithLocalhost(u) <==> PatternEndsString(u)
  {
    if EndsWithLocalhost(u) {
      EndsWithLocalhostSound(u);
    }
    if PatternEndsString(u) {
      var j: nat :| MatchFrom(u, j);
      EndsWithLocalhostComplete(u, j);
    }
  }

  /** Scanning back from p finds a match exactly when one ends at some line end up to p. */
  lemma {:induction false} MatchesAtOrBeforeCorrect(s: string, p: nat)
    requires p <= |s|
    ensures MatchesAtOrBefore(s, p) <==>
      exists q: nat :: q <= p && MatchEndsAt(s, q)
    decreases p
  {
    ScanStep(s, p);
    if 0 < p {
      MatchesAtOrBeforeCorrect(s, p - 1);
      if exists q: nat :: q <= p && MatchEndsAt(s, q) {
        var q: nat :| q <= p && MatchEndsAt(s, q);
        if q < p {
          assert q <= p - 1;
        }
      }
    }
  }

  /** One step of the scan, with the suffix test replaced by the pattern it decides. */
  lemma ScanStep(s: string, p: nat)
    requires p <= |s|
    ensures MatchesAtOrBefore(s, p) <==>
      MatchEndsAt(s, p) || (0 < p && MatchesAtOrBefore(s, p - 1))
  {
    EndsWithLocalhostCorrect(s[..p]);
  }

  /** The check of lib/two_factor_auth.rb:19 decides the regular expression exactly. */
  lemma MatchesLocalhostCorrect(s: string)
    ensures MatchesLocalhost(s) <==> LocalhostLike(s)
  {
    MatchesAtOrBeforeCorrect(s, |s|);
  }

  /** On a single line `$` is just the end of the string. */
  lemma SingleLineLocalhost(s: string)
    requires '\n' !in s
    ensures LocalhostLike(s) <==> PatternEndsString(s)
  {
    if LocalhostLike(s) {
      var p: nat :| MatchEndsAt(s, p);
      assert p == |s|;
      assert s[..p] == s;
    }
    if PatternEndsString(s) {
      assert s[..|s|] == s;
      assert MatchEndsAt(s, |s|);
    }
  }

  // ---------------------------------------------------------------------------------------------
  // Stripping the trailing slash

  /** Position i holds a slash that `\/$` matches. */
  predicate SlashAtLineEnd(s: string, i: nat) {
    i < |s| && s[i] == '/' && AtLineEnd(s, i + 1)
  }

  /** The first position from `from` on where `\/$` matches, if any. */
  function FirstSlashAtLineEnd(s: string, from: nat): (r: Option<nat>)
    requires from <= |s|
    ensures r.Some? ==> from <= r.value && SlashAtLineEnd(s, r.value)
    ensures forall k :: from <= k < |s| && (r.None? || k < r.value) ==> !SlashAtLineEnd(s, k)
    decreases |s| - from
  {
    if from == |s| then None
    else if SlashAtLineEnd(s, from) then Some(from)
    else FirstSlashAtLineEnd(s, from + 1)
  }

  /**
   * `sub(/\/$/, '')`: removes the leftmost slash that stands at a line end, and nothing else.
   * The result is s with one character removed, or s itself when no such slash exists.
   */
  function SubTrailingSlash(s: string): (r: string)
    ensures (forall k :: 0 <= k < |s| ==> !SlashAtLineEnd(s, k)) ==> r == s
    ensures forall i ::
      0 <= i < |s| && SlashAtLineEnd(s, i) && (forall k :: 0 <= k < i ==> !SlashAtLineEnd(s, k))
      ==> r == s[..i] + s[i + 1..]
  {
    match FirstSlashAtLineEnd(s, 0)
    case None => s
    case Some(i) => s[..i] + s[i + 1..]
  }

  /** On a single line exactly one trailing slash goes, and only a trailing one. */
  lemma SingleLineSlash(s: string)
    requires '\n' !in s
    ensures SubTrailingSlash(s) == DropSlash(s)
  {
    forall k | 0 <= k < |s| - 1 ensures !SlashAtLineEnd(s, k) {
      assert s[k + 1] != '\n';
    }
    if |s| > 0 && s[|s| - 1] == '/' {
      assert SlashAtLineEnd(s, |s| - 1);
      assert s[..|s| - 1] + s[|s|..] == s[..|s| - 1];
    }
  }

  // ---------------------------------------------------------------------------------------------
  // Setters and getters

  /**
   * `facet_domain=`: refuses a localhost-like domain, then the placeholder, in that order; otherwise
   * stores the domain with its trailing slash stripped. On failure no new configuration exists, so
   * the caller's one is unchanged; other settings are never touched.
   */
  function SetFacetDomain(c: Config, d: string): (r: Result<Config, TwoFactorAuthError>)
    ensures r.Failure? <==> LocalhostLike(d) || d == PlaceholderDomain
    ensures LocalhostLike(d) ==> r == Failure(InvalidFacetDomain(LocalhostMessage))
    ensures !LocalhostLike(d) && d == PlaceholderDomain ==> r == Failure(InvalidFacetDomain(PlaceholderMessage))
    ensures r.Success? ==> r.value == c.(facetDomain := Some(SubTrailingSlash(d)))
  {
    MatchesLocalhostCorrect(d);
    if MatchesLocalhost(d) then Failure(InvalidFacetDomain(LocalhostMessage))
    else if d == PlaceholderDomain then Failure(InvalidFacetDomain(PlaceholderMessage))
    else Success(c.(facetDomain := Some(SubTrailingSlash(d))))
  }

  /**
   * `facet_domain`: the stored domain, `None` if it was never set. Both defaults are built from
   * what it returns: the facet list falls back to the one-element list of it, and the trusted facet
   * list URL to its text followed by the trusted-facets path.
   */
  function FacetDomain(c: Config): (r: Option<string>)
    ensures c.facets.None? || c.facets == Some([]) ==> Facets(c) == [r]
    ensures c.trustedFacetListUrl.None? ==> TrustedFacetListUrl(c) == DomainText(r) + TrustedFacetsPath
  {
    c.facetDomain
  }

  /** `trusted_facet_list_url=`: stores the override (`None` clears it) and nothing else. */
  function SetTrustedFacetListUrl(c: Config, url: Option<string>): (r: Config)
    ensures r.trustedFacetListUrl == url
    ensures r.facetDomain == c.facetDomain && r.facets == c.facets
  {
    c.(trustedFacetListUrl := url)
  }

  /** How `"#{facet_domain}"` renders the domain: `nil` interpolates as the empty string. */
  function DomainText(d: Option<string>): string {
    d.GetOr("")
  }

  /**
   * `trusted_facet_list_url`: the override whenever one is set (even an empty one, which Ruby treats
   * as true), otherwise the facet domain followed by the trusted-facets path, computed on each read.
   */
  function TrustedFacetListUrl(c: Config): (r: string)
    ensures c.trustedFacetListUrl.Some? ==> r == c.trustedFacetListUrl.value
    ensures c.trustedFacetListUrl.None? ==>
      EndsWith(r, TrustedFacetsPath) && r[..|r| - |TrustedFacetsPath|] == DomainText(c.facetDomain)
  {
    match c.trustedFacetListUrl
    case Some(url) => url
    case None =>
      var r := DomainText(c.facetDomain) + TrustedFacetsPath;
      assert r[..|r| - |TrustedFacetsPath|] == DomainText(c.facetDomain);
      r
  }

  /** `facets=`: stores the list (`None` clears it) and nothing else. */
  function SetFacets(c: Config, facets: Option<seq<string>>): (r: Config)
    ensures r.facets == facets
    ensures r.facetDomain == c.facetDomain && r.trustedFacetListUrl == c.trustedFacetListUrl
  {
    c.(facets := facets)
  }

  /**
   * `facets`: the stored list, in order and with duplicates kept, unless it is unset or empty, in
   * which case the one-element list of the facet domain (`[nil]` when that too is unset).
   */
  function Facets(c: Config): (r: seq<Option<string>>)
    ensures |r| >= 1
    ensures c.facets.None? || |c.facets.value| == 0 ==> r == [c.facetDomain]
    ensures c.facets.Some? && |c.facets.value| > 0 ==>
      |r| == |c.facets.value| && forall i :: 0 <= i < |r| ==> r[i] == Some(c.facets.value[i])
  {
    if c.facets.None? || |c.facets.value| == 0 then [c.facetDomain]
    else
      var facets := c.facets.value;
      seq(|facets|, i requires 0 <= i < |facets| => Some(facets[i]))
  }

  // ---------------------------------------------------------------------------------------------
  // Properties

  /**
   * Every domain ending in `localhost`, with or without a port and a final slash, is refused with
   * the localhost message, whatever comes before it.
   */
  lemma LocalhostRejected(c: Config, host: string, port: string, slash: bool)
    requires forall i :: 0 <= i < |port| ==> IsDigit(port[i])
    ensures var t := (if |port| > 0 then ":" + port else "") + (if slash then "/" else "");
      SetFacetDomain(c, host + Localhost + t) == Failure(InvalidFacetDomain(LocalhostMessage))
  {
    var p := if |port| > 0 then ":" + port else "";
    var t := p + (if slash then "/" else "");
    var d := host + Localhost + t;
    var j := |host|;
    assert d[j..j + |Localhost|] == Localhost;
    assert d[j + |Localhost|..] == t;
    if |port| > 0 {
      assert PortSuffix(p);
      if slash {
        assert t[..|t| - 1] == p;
      }
    }
    assert MatchFrom(d, j);
    assert d[..|d|] == d;
    assert MatchEndsAt(d, |d|);
  }

  /** A successful set stores the domain and leaves the overrides alone. */
  lemma SetFacetDomainStores(c: Config, d: string)
    requires SetFacetDomain(c, d).Success?
    ensures var c' := SetFacetDomain(c, d).value;
      && FacetDomain(c') == Some(SubTrailingSlash(d))
      && c'.trustedFacetListUrl == c.trustedFacetListUrl
      && c'.facets == c.facets
  {
  }

  /**
   * The defaults are computed when read, so they follow the most recent facet domain: with no
   * override, the trusted facet list URL and the facet list are derived from the stored domain.
   */
  lemma DefaultsTrackDomain(c: Config, d: string)
    requires SetFacetDomain(c, d).Success?
    ensures var c' := SetFacetDomain(c, d).value;
      && (c.trustedFacetListUrl.None? ==> TrustedFacetListUrl(c') == SubTrailingSlash(d) + TrustedFacetsPath)
      && (c.facets.None? || c.facets == Some([]) ==> Facets(c') == [Some(SubTrailingSlash(d))])
  {
  }

  /** An explicit URL or a non-empty facet list survives any later change of the facet domain. */
  lemma OverridesSurviveDomainChange(c: Config, d: string)
    requires SetFacetDomain(c, d).Success?
    ensures var c' := SetFacetDomain(c, d).value;
      && (c.trustedFacetListUrl.Some? ==> TrustedFacetListUrl(c') == TrustedFacetListUrl(c))
      && (c.facets.Some? && |c.facets.value| > 0 ==> Facets(c') == Facets(c))
  {
  }

  /** A non-empty facet list is returned as given, in order and with duplicates; an empty one falls back. */
  lemma FacetsRoundTrip(c: Config, facets: seq<string>)
    ensures |facets| > 0 ==> var r := Facets(SetFacets(c, Some(facets)));
      |r| == |facets| && forall i :: 0 <= i < |facets| ==> r[i] == Some(facets[i])
    ensures |facets| == 0 ==> Facets(SetFacets(c, Some(facets))) == [c.facetDomain]
    ensures Facets(SetFacets(c, None)) == [c.facetDomain]
  {
  }

  /** Setting the URL override is read back unchanged, even when it is empty; clearing it restores the default. */
  lemma TrustedFacetListUrlRoundTrip(c: Config, url: string)
    ensures TrustedFacetListUrl(SetTrustedFacetListUrl(c, Some(url))) == url
    ensures TrustedFacetListUrl(SetTrustedFacetListUrl(c, None)) == DomainText(c.facetDomain) + TrustedFacetsPath
  {
  }

  /** On one line, a domain ending in a slash is stored with exactly that one slash removed. */
  lemma StripsOneSlash(c: Config, d: string)
    requires '\n' !in d
    requires SetFacetDomain(c, d).Success?
    ensures var stored := SetFacetDomain(c, d).value.facetDomain.value;
      && (|d| > 0 && d[|d| - 1] == '/' ==> stored == d[..|d| - 1])
      && (|d| == 0 || d[|d| - 1] != '/' ==> stored == d)
  {
    SingleLineSlash(d);
  }

  // ---------------------------------------------------------------------------------------------
  // Examples
  //
  // Each example takes its string as a parameter pinned by `requires` rather than as a literal
  // argument: with a literal the verifier unfolds the matcher and the slash search on every
  // character, which costs far more than the few facts each example spells out.

  /** The nine characters of u from j spell `localhost`. */
  lemma SpellsLocalhost(u: string, j: nat)
    requires j + 9 <= |u|
    requires u[j] == 'l' && u[j + 1] == 'o' && u[j + 2] == 'c' && u[j + 3] == 'a' && u[j + 4] == 'l'
    requires u[j + 5] == 'h' && u[j + 6] == 'o' && u[j + 7] == 's' && u[j + 8] == 't'
    ensures u[j..j + |Localhost|] == Localhost
  {
  }

  /** Some match of the pattern starts at j and runs to the end of d. */
  lemma MatchAtEnd(d: string, j: nat)
    requires MatchFrom(d, j)
    ensures LocalhostLike(d)
  {
    assert d[..|d|] == d;
    assert MatchEndsAt(d, |d|);
  }

  lemma LocalhostPortExample(c: Config, d: string)
    requires d == "http://localhost:3000"
    ensures SetFacetDomain(c, d) == Failure(InvalidFacetDomain(LocalhostMessage))
  {
    SpellsLocalhost(d, 7);
    assert PortSuffix(d[16..]);
    MatchAtEnd(d, 7);
  }

  lemma LocalhostExample(c: Config, d: string)
    requires d == "http://localhost"
    ensures SetFacetDomain(c, d) == Failure(InvalidFacetDomain(LocalhostMessage))
  {
    SpellsLocalhost(d, 7);
    assert d[16..] == "";
    MatchAtEnd(d, 7);
  }

  /** The pattern is not anchored at a word boundary, so a host that merely ends in `localhost` is refused too. */
  lemma LocalhostSuffixExample(c: Config, d: string)
    requires d == "http://mylocalhost/"
    ensures SetFacetDomain(c, d) == Failure(InvalidFacetDomain(LocalhostMessage))
  {
    SpellsLocalhost(d, 9);
    assert d[18..] == "/";
    MatchAtEnd(d, 9);
  }

  lemma PlaceholderExample(c: Config, d: string)
    requires d == "https://www.example.com"
    ensures SetFacetDomain(c, d) == Failure(InvalidFacetDomain(PlaceholderMessage))
  {
    SingleLineLocalhost(d);
    EndsWithLocalhostCorrect(d);
    assert DropSlash(d) == d;
    assert DigitRun(d) == 0;
    assert !EndsWithLocalhost(d);
  }

  /** The domain of the accepted example does not look like localhost, and loses its slash. */
  lemma RealDomainChecks(d: string)
    requires d == "https://auth.example.org/"
    ensures !LocalhostLike(d)
    ensures SubTrailingSlash(d) == "https://auth.example.org"
  {
    var stripped := "https://auth.example.org";
    SingleLineLocalhost(d);
    EndsWithLocalhostCorrect(d);
    assert DropSlash(d) == stripped;
    assert DigitRun(stripped) == 0;
    assert !EndsWithLocalhost(d);
    SingleLineSlash(d);
  }

  /** A real domain is accepted, stored without its slash, and drives both defaults. */
  lemma AcceptedExample(d: string)
    requires d == "https://auth.example.org/"
    ensures SetFacetDomain(Unconfigured, d).Success?
    ensures var c := SetFacetDomain(Unconfigured, d).value;
      && FacetDomain(c) == Some("https://auth.example.org")
      && Facets(c) == [Some("https://auth.example.org")]
      && TrustedFacetListUrl(c) == "https://auth.example.org" + TrustedFacetsPath
  {
    RealDomainChecks(d);
    var stripped := "https://auth.example.org";
    var c := SetFacetDomain(Unconfigured, d).value;
    assert c == Config(Some(stripped), None, None);
  }

  /** Only the exact placeholder is refused: checked before stripping, it passes with a trailing slash. */
  lemma PlaceholderWithSlashExample(d: string)
    requires d == "https://www.example.com/"
    ensures SetFacetDomain(Unconfigured, d).Success?
    ensures FacetDomain(SetFacetDomain(Unconfigured, d).value) == Some(PlaceholderDomain)
  {
    var stripped := "https://www.example.com";
    SingleLineLocalhost(d);
    EndsWithLocalhostCorrect(d);
    assert DropSlash(d) == stripped;
    assert DigitRun(stripped) == 0;
    assert !EndsWithLocalhost(d);
    SingleLineSlash(d);
  }

  lemma DoubleSlashPasses(d: string)
    requires d == "http://localhost//"
    ensures !LocalhostLike(d) && SubTrailingSlash(d) == "http://localhost/"
  {
    var v := "http://localhost/";
    SingleLineLocalhost(d);
    EndsWithLocalhostCorrect(d);
    assert DropSlash(d) == v;
    assert DigitRun(v) == 0;
    assert !EndsWithLocalhost(d);
    SingleLineSlash(d);
  }

  /**
   * The localhost check looks at the domain before its slash is stripped, so a domain ending in two
   * slashes passes and is stored as one that the check would have refused.
   */
  lemma DoubleSlashExample(d: string)
    requires d == "http://localhost//"
    ensures SetFacetDomain(Unconfigured, d).Success?
    ensures var stored := SetFacetDomain(Unconfigured, d).value.facetDomain.value;
      stored == "http://localhost/" && LocalhostLike(stored)
  {
    var v := "http://localhost/";
    DoubleSlashPasses(d);
    SpellsLocalhost(v, 7);
    assert v[16..] == "/";
    MatchAtEnd(v, 7);
  }

  /**
   * `$` also matches before a line break, so a domain is refused when any of its lines, not only
   * the last, ends in `localhost` with an optional port and slash.
   */
  lemma MultiLineExample(c: Config, d: string)
    requires d == "http://localhost" + "\n" + "https://auth.example.org"
    ensures SetFacetDomain(c, d) == Failure(InvalidFacetDomain(LocalhostMessage))
  {
    var u := "http://localhost";
    assert d[..16] == u;
    assert AtLineEnd(d, 16);
    SpellsLocalhost(u, 7);
    assert u[16..] == "";
    assert MatchFrom(u, 7);
    assert MatchEndsAt(d, 16);
  }

  /** Neither line end of the mid-line example ends a match of the pattern. */
  lemma MidLineEnds(d: string)
    requires d == "http://localhost.evil" + "\n" + "foo"
    ensures !PatternEndsString(d[..21]) && !PatternEndsString(d)
  {
    var first := "http://localhost.evil";
    assert d[..21] == first;
    EndsWithLocalhostCorrect(first);
    EndsWithLocalhostCorrect(d);
    assert DropSlash(first) == first && DigitRun(first) == 0;
    assert DropSlash(d) == d && DigitRun(d) == 0;
  }

  /** A line that contains `localhost` without ending in it does not count. */
  lemma MidLineExample(d: string)
    requires d == "http://localhost.evil" + "\n" + "foo"
    ensures !LocalhostLike(d)
    ensures SetFacetDomain(Unconfigured, d).Success?
  {
    MidLineEnds(d);
    assert d[..|d|] == d;
    forall p: nat | p <= |d| && AtLineEnd(d, p) ensures !MatchEndsAt(d, p) {
      assert p == 21 || p == |d|;
    }
  }
}

=== FILE: websafe.dfy ===
/**
 * `TwoFactorAuth.websafe_base64_encode`, `websafe_base64_decode` and `random_encoded_challenge`
 * (lib/two_factor_auth.rb): the unpadded URL-safe base64 that U2F uses for challenges, key handles
 * and client data, built on the padded codec of module Base64.
 */
module Websafe {
  import opened Wrappers
  import opened Base64
  import opened Errors

  /** A run of k padding characters. */
  function Pads(k: nat): (r: string)
    ensures |r| == k && forall i :: 0 <= i < k ==> r[i] == PadChar
  {
    seq(k, _ => PadChar)
  }

  /**
   * `sub(/=+$/, '')` on a string without line breaks: the leftmost run of `=` that reaches the end
   * is the whole trailing run, and it is removed.
   */
  function TrimPadding(s: string): (r: string)
    ensures |r| <= |s| && r == s[..|r|]
    ensures forall i :: |r| <= i < |s| ==> s[i] == PadChar
    ensures |r| == 0 || r[|r| - 1] != PadChar
    decreases |s|
  {
    if |s| > 0 && s[|s| - 1] == PadChar then TrimPadding(s[..|s| - 1]) else s
  }

  /** `(length / 4.0).ceil * 4`: the smallest multiple of four that is at least n. */
  function PaddedWidth(n: nat): (w: nat)
    ensures w % 4 == 0 && n <= w < n + 4
  {
    (n + 3) / 4 * 4
  }

  /** `ljust(PaddedWidth(length), '=')`: pads s with `=` up to the next multiple of four. */
  function Pad(s: string): (r: string)
    ensures |r| % 4 == 0 && |s| <= |r| < |s| + 4
    ensures r[..|s|] == s
    ensures forall i :: |s| <= i < |r| ==> r[i] == PadChar
    ensures |s| % 4 == 0 ==> r == s
  {
    s + Pads(PaddedWidth(|s|) - |s|)
  }

  /** The number of characters `websafe_base64_encode` gives for n bytes. */
  function UnpaddedLength(n: nat): nat {
    4 * (n / 3) + (if n % 3 == 0 then 0 else n % 3 + 1)
  }

  /** How the padded and unpadded lengths of an n-byte encoding relate. */
  lemma EncodedLengths(n: nat)
    ensures (4 * ((n + 2) / 3)) % 4 == 0
    ensures UnpaddedLength(n) + PadCount(n) == 4 * ((n + 2) / 3)
    ensures PaddedWidth(UnpaddedLength(n)) == 4 * ((n + 2) / 3)
  {
    var q, m := n / 3, n % 3;
    assert n == 3 * q + m;
    if m == 0 {
      assert (n + 2) / 3 == q;
    } else {
      assert (n + 2) / 3 == q + 1;
    }
  }

  /** Trimming a run of padding off a string that does not already end in padding gives the string back. */
  lemma {:induction false} TrimPads(s: string, k: nat)
    requires |s| == 0 || s[|s| - 1] != PadChar
    ensures TrimPadding(s + Pads(k)) == s
    decreases k
  {
    if k > 0 {
      var t := s + Pads(k);
      assert t[|t| - 1] == PadChar;
      assert t[..|t| - 1] == s + Pads(k - 1);
      TrimPads(s, k - 1);
    }
  }

  /** A padded-shaped encoding is its unpadded part followed by its padding. */
  lemma SplitShape(e: string, k: nat)
    requires PaddedShape(e, k)
    ensures e == e[..|e| - k] + Pads(k)
    ensures |e| == k || e[|e| - k - 1] != PadChar
  {
    assert e[..|e| - k] + Pads(k) == e;
  }

  /** Trimming the padded encoding leaves its alphabet part, of the unpadded length. */
  lemma TrimmedEncoding(b: seq<byte>)
    ensures var u := TrimPadding(UrlsafeEncode(b));
      && |u| == UnpaddedLength(|b|)
      && (forall i :: 0 <= i < |u| ==> IsUrlSafeChar(u[i]))
      && UrlsafeEncode(b) == u + Pads(PadCount(|b|))
  {
    var e, k := UrlsafeEncode(b), PadCount(|b|);
    EncodedLengths(|b|);
    EncodeShape(b);
    SplitShape(e, k);
    var u := e[..|e| - k];
    assert e == u + Pads(k);
    TrimPads(u, k);
    assert TrimPadding(e) == u;
    forall i | 0 <= i < |u| ensures IsUrlSafeChar(u[i]) {
      assert u[i] == e[i];
    }
  }

  /**
   * `websafe_base64_encode`: the padded URL-safe encoding with its trailing `=` removed. The result
   * uses only the URL-safe alphabet, and the padding it drops is exactly what the padded encoding adds.
   */
  function WebsafeEncode(b: seq<byte>): (r: string)
    ensures |r| == UnpaddedLength(|b|)
    ensures forall i :: 0 <= i < |r| ==> IsUrlSafeChar(r[i])
    ensures PadChar !in r
    ensures UrlsafeEncode(b) == r + Pads(PadCount(|b|))
  {
    TrimmedEncoding(b);
    TrimPadding(UrlsafeEncode(b))
  }

  /** A quantum whose second character is `=` can never be decoded. */
  lemma {:induction false} EarlyPadRejected(t: string)
    requires |t| >= 4 && |t| % 4 == 0 && t[|t| - 3] == PadChar
    ensures UrlsafeDecode(t).Failure?
    decreases |t|
  {
    if |t| > 4 {
      var rest := t[4..];
      assert rest[|rest| - 3] == t[|t| - 3];
      EarlyPadRejected(rest);
    }
  }

  /** The ways padding and then decoding s can fail, stated about s itself. */
  lemma PaddedDecodeFailures(s: string)
    ensures |s| % 4 == 1 ==> UrlsafeDecode(Pad(s)).Failure?
    ensures forall i :: 0 <= i < |s| && DecodeValue(s[i]).None? && s[i] != PadChar ==>
      UrlsafeDecode(Pad(s)).Failure?
  {
    var p := Pad(s);
    if |s| % 4 == 1 {
      assert |p| == |s| + 3;
      assert p[|p| - 3] == PadChar;
      EarlyPadRejected(p);
    }
    forall i | 0 <= i < |s| && DecodeValue(s[i]).None? && s[i] != PadChar
      ensures UrlsafeDecode(p).Failure?
    {
      assert p[i] == s[i];
      ForeignCharRejected(p, i);
    }
  }

  /**
   * `websafe_base64_decode`: pads back out to a multiple of four and decodes strictly. Text of
   * length one more than a multiple of four, or holding any character outside the decoder's
   * alphabet other than `=`, is refused; text already a multiple of four long is decoded as it is.
   */
  function WebsafeDecode(s: string): (r: Result<seq<byte>, DecodeError>)
    ensures |s| % 4 == 1 ==> r.Failure?
    ensures r.Success? ==> forall i :: 0 <= i < |s| ==> DecodeValue(s[i]).Some? || s[i] == PadChar
    ensures |s| % 4 == 0 ==> r == UrlsafeDecode(s)
  {
    PaddedDecodeFailures(s);
    UrlsafeDecode(Pad(s))
  }

  /** Padding an unpadded encoding restores the padded encoding. */
  lemma PadRestoresEncoding(b: seq<byte>)
    ensures Pad(WebsafeEncode(b)) == UrlsafeEncode(b)
  {
    var r, k := WebsafeEncode(b), PadCount(|b|);
    EncodedLengths(|b|);
    assert Pad(r) == r + Pads(k);
  }

  /** Decoding undoes encoding, for every byte string. */
  lemma WebsafeRoundTrip(b: seq<byte>)
    ensures WebsafeDecode(WebsafeEncode(b)) == Success(b)
  {
    PadRestoresEncoding(b);
    DecodeEncode(b);
  }

  /** The decoder also accepts the padded form, since padding it again changes nothing. */
  lemma DecodeAcceptsPadded(b: seq<byte>)
    ensures WebsafeDecode(UrlsafeEncode(b)) == Success(b)
  {
    EncodedLengths(|b|);
    DecodeEncode(b);
  }

  /** A foreign character anywhere in unpadded text makes the web-safe decoder fail. */
  lemma WebsafeForeignCharRejected(s: string, i: nat)
    requires i < |s| && DecodeValue(s[i]).None? && s[i] != PadChar
    ensures WebsafeDecode(s).Failure?
  {
    assert Pad(s)[i] == s[i];
    ForeignCharRejected(Pad(s), i);
  }

  /**
   * Over the URL-safe alphabet the encoding is canonical: whatever decodes re-encodes to the
   * same text, so no two accepted strings name the same bytes.
   */
  lemma DecodeCanonical(s: string)
    requires forall i :: 0 <= i < |s| ==> IsUrlSafeChar(s[i])
    requires WebsafeDecode(s).Success?
    ensures WebsafeEncode(WebsafeDecode(s).value) == s
  {
    var p := Pad(s);
    forall i | 0 <= i < |p| ensures IsUrlSafeChar(p[i]) || p[i] == PadChar {
      if i < |s| {
        assert p[i] == s[i];
      }
    }
    EncodeDecode(p);
    var v := WebsafeDecode(s).value;
    assert p == s + Pads(|p| - |s|);
    TrimPads(s, |p| - |s|);
    assert UrlsafeEncode(v) == WebsafeEncode(v) + Pads(PadCount(|v|));
    TrimPads(WebsafeEncode(v), PadCount(|v|));
  }

  /** The number of random bytes `random_encoded_challenge` draws. */
  const ChallengeLength := 32

  type ChallengeBytes = b: seq<byte> | |b| == ChallengeLength witness seq(32, _ => 0)

  /** The outcome of `OpenSSL::Random.pseudo_bytes(32)`: the bytes, or `RandomError`. */
  datatype RandomDraw = Drawn(bytes: ChallengeBytes) | RandomError

  /**
   * `random_encoded_challenge`: the web-safe encoding of 32 random bytes, or
   * `CantGenerateRandomNumbers` when the generator fails.
   */
  function RandomEncodedChallenge(draw: RandomDraw): (r: Result<string, TwoFactorAuthError>)
    ensures r.Failure? <==> draw.RandomError?
    ensures r.Failure? ==> r.error == CantGenerateRandomNumbers(EntropyMessage)
    ensures r.Success? ==> |r.value| == 43 && WebsafeDecode(r.value) == Success(draw.bytes)
    ensures r.Success? ==> forall i :: 0 <= i < |r.value| ==> IsUrlSafeChar(r.value[i])
  {
    match draw
    case RandomError => Failure(CantGenerateRandomNumbers(EntropyMessage))
    case Drawn(bytes) =>
      WebsafeRoundTrip(bytes);
      Success(WebsafeEncode(bytes))
  }
}

=== FILE: wrappers.dfy ===
/** `Option` and `Result`, standing in for Ruby's `nil` and raised exceptions. */
module Wrappers {

  /** A value that may be absent; `None` stands for Ruby's `nil`. */
  datatype Option<+T> = None | Some(value: T) {

    /** Returns the encapsulated value, or `default` when there is none. */
    function GetOr(default: T): T {
      match this
      case Some(v) => v
      case None => default
    }
  }

  /** Either a value or the error an operation raises instead of returning. */
  datatype Result<+R, +E> = Success(value: R) | Failure(error: E)
}
